=== FILE: README.md ===
# Resource pool monitor, modelled in Dafny

This project models the `Pool` class of the ThreadPool repository. The pool is a
process-wide registry of reusable resources. Workers `add` and `remove` resources,
borrow them with `acquire()` or `acquire(timeout, unit)`, and give them back with
`release`. An operator gates borrowing with `open`, `close` and `closeNow`.

Every public method except `isOpen()` and `clearResources()` is `synchronized`. So
each call runs as one atomic step on the pool's four fields, up to its first
`wait()`; the reset is modelled as atomic too (see "## Left out"). The fields are:

- the `isOpen` gate;
- the FIFO queue of free resources;
- the set of borrowed ("outstanding") identifiers;
- the set of all member identifiers.

The model is an immutable `PoolState<Id>` with one pure transition function per
method. Each function returns the next state and an `Outcome`:

- `Returned(v)`: the method returns `v`;
- `WouldBlock`: the thread parks in `wait()`, and the state is unchanged;
- `NullPointer`: a null resource is dereferenced.

What a parked caller does after `notifyAll()` is a separate wake function
(`AcquireWake`, `TimedAcquireWake`, `CloseWake`). A concurrent run is an
interleaving of such steps, and `PoolTraces.Run` replays one.

A resource is known only by its identifier. The model uses a generic `Id` with
equality and assumes identifiers are unique per resource object. Under that
assumption the queue's `remove(Object)`, which matches by reference, matches by
identifier. A bare UUID never matches a queued resource (`PoolTypes.QueueArg`).

Two invariants are proved:

- `WellFormed`: borrowed and queued resources are members; the queue has no
  duplicates; nothing is both queued and borrowed. Every step keeps it.
- `Valid`: `WellFormed`, plus members = queued ∪ borrowed, so the size equals the
  number queued plus the number borrowed. Every step except the timed acquire keeps
  it.

The model follows the code, not the comments. The comment on `close()`
(src/core/Pool.java:75) says it closes the pool once the resources are back. The
source comment in `remove` (src/core/Pool.java:126) only notes that the resource
may be out. The expectation that removing a borrowed resource waits for it comes
from the comments of the test at src/core/TestCases.java:186-188, and from the
wait loop the code places in that branch. The timed acquire is meant to be a
bounded form of `acquire()`. For these three methods the code does otherwise. Its
actual behaviour is proved in `PoolDepartures`, and a corrected definition is
proved in `PoolIntended`; see "## Findings".

The Javadoc of `add` (src/core/Pool.java:103-106) says it returns true when the
resource exists. That is the inverse of the code and of the test at
src/core/TestCases.java:131-148, which agree with each other; the model follows
them.

## Model

| member | source | states |
|---|---|---|
| PoolTypes.Fresh | src/core/Pool.java:20-32 | A new pool is closed and holds no queued, borrowed or member resources. |
| PoolTypes.WellFormed | src/core/Pool.java:20-32 | The weak invariant over the four fields: the borrowed and the queued identifiers are members, the queue holds no identifier twice, and nothing is both queued and borrowed. |
| PoolTypes.Valid | src/core/Pool.java:20-32 | The balance the design promises: the weak invariant, plus every member is either queued or borrowed. |
| PoolTypes.IndexOf | src/core/Pool.java:146 | The position found is that of the first occurrence: it holds the identifier and no earlier position does. |
| PoolTypes.QueueRemove | src/core/Pool.java:146 | Queue removal by resource drops exactly one copy of that identifier when present (multiset minus one, length minus one) and otherwise keeps the same contents. |
| PoolTypes.QueueRemoveFirst | src/core/Pool.java:146 | When the resource is queued, removal cuts out exactly its first position and keeps every other element in its order. |
| PoolTypes.QueueRemoveNoMatch | src/core/Pool.java:139 | When no element equals the argument, removal leaves the queue identical, order included. |
| PoolTypes.QueueRemoveUuidIsNoOp | src/core/Pool.java:139 | Removing a UUID from the queue of resources never changes the queue. |
| PoolTypes.QueueRemoveElems | src/core/Pool.java:162 | On a duplicate-free queue, removing a resource erases its identifier completely and keeps every other one. |
| PoolTypes.QueueRemoveNoDup | src/core/Pool.java:162 | Queue removal keeps the queue duplicate-free. |
| PoolTypes.ValidSize | src/core/Pool.java:31-32 | In a balanced pool, the number of members is the number queued plus the number borrowed. |
| Pool.Open | src/core/Pool.java:52-54 | `open` leaves the gate open and changes no collection. |
| Pool.CloseNow | src/core/Pool.java:98-100 | `closeNow` leaves the gate closed and changes no collection; borrowed resources stay borrowed. |
| Pool.GetSize | src/core/Pool.java:61-63 | `getSize` changes nothing and reports the number of members; in a balanced pool that is queued plus borrowed. |
| Pool.Close | src/core/Pool.java:77-93 | `close` never changes the state on entry: it returns exactly when nothing is borrowed (gate untouched) and parks otherwise. |
| Pool.CloseWake | src/core/Pool.java:78-91 | A woken `close` always leaves the gate closed, changes no collection, and returns exactly when nothing is borrowed. |
| Pool.Add | src/core/Pool.java:108-120 | `add` answers true iff the identifier was not a member. Then the identifier is at the queue's tail, members grow by exactly it, and the size grows by one. Otherwise nothing changes. A null resource throws. |
| Pool.RemoveMustWait | src/core/Pool.java:128 | The guard of the wait loop inside `remove`: the caller waits while the identifier is NOT borrowed. |
| Pool.Remove | src/core/Pool.java:122-155 | `remove` always returns and never parks. It answers true iff the resource is a member. Then the identifier leaves the members and the borrowed set. The queue is untouched for a borrowed resource. For a free one, the queue loses exactly its first position holding the identifier, and the rest keep their order. Otherwise nothing changes. |
| Pool.QueueRemoveCut | src/core/Pool.java:146 | Removing a resource from the queue cuts out its first position, or leaves the queue identical when it is not queued. |
| Pool.RemoveNow | src/core/Pool.java:157-172 | `removeNow` answers true iff the resource is a member. Then the identifier leaves the members and the borrowed set. If it was queued, the queue loses exactly its first position and the rest keep their order; otherwise the queue is identical. Otherwise nothing changes. |
| Pool.AcquireWake | src/core/Pool.java:178-190 | The poll of `acquire()`, repeated after each wake, ignores the gate. It parks iff the queue is empty. On a non-empty queue it returns the head, the queue loses exactly its head, and the head becomes borrowed. |
| Pool.Refuses | src/core/Pool.java:175 | The entry test shared by both acquires (also src/core/Pool.java:198): the pool is closed or has no members. |
| Pool.Acquire | src/core/Pool.java:174-192 | `acquire()` returns null with no change exactly when the pool is closed or memberless, whatever is queued. Otherwise it returns the head of a non-empty queue and parks on an empty one, as the poll does. |
| Pool.TimedAcquire | src/core/Pool.java:194-202 | The timed acquire refuses like `acquire()` and parks on an empty queue. Otherwise it returns the head and drops it from the queue without adding it to the borrowed set. |
| Pool.TimedAcquireWake | src/core/Pool.java:202-222 | After its single wait, the timed acquire returns a resource iff the wake came before the deadline and the queue is non-empty. The resource is not recorded as borrowed; otherwise null with no change. |
| Pool.Release | src/core/Pool.java:225-237 | `release` answers true iff the resource is borrowed. Then it is appended to the queue and leaves the borrowed set, which shrinks by one. Otherwise (null, never borrowed, released twice, removed) nothing changes. |
| Pool.ClearResources | src/core/Pool.java:242-246 | `clearResources` empties the queue, the members and the borrowed set, and keeps the gate. |
| PoolInvariant.LifecycleKeepsValid | src/core/Pool.java:52-100 | `open`, `close`, its wake, `closeNow`, `getSize` and `clearResources` keep both invariants; a reset pool is balanced. |
| PoolInvariant.AddKeepsValid | src/core/Pool.java:108-120 | `add` keeps both invariants. |
| PoolInvariant.ReleaseKeepsValid | src/core/Pool.java:225-237 | `release` keeps both invariants. |
| PoolInvariant.AcquireKeepsValid | src/core/Pool.java:174-192 | `acquire()` and its wake keep both invariants. |
| PoolInvariant.TimedAcquireKeepsWellFormed | src/core/Pool.java:194-223 | The timed acquire and its wake keep the weak invariant. |
| PoolInvariant.RemoveKeepsValid | src/core/Pool.java:122-155 | `remove` keeps both invariants, whether the resource is borrowed or free. |
| PoolInvariant.RemoveNowKeepsValid | src/core/Pool.java:157-172 | `removeNow` keeps both invariants. |
| PoolTraces.Apply | src/core/Pool.java:52-246 | One monitor step, dispatched to its method or wake. Only `open`, `closeNow` and the wake of `close` move the gate; `open` leaves it open, and the other two leave it closed. |
| PoolTraces.Run | src/core/Pool.java:52-246 | Replays a trace of steps in order. A trace without a gate step leaves the gate as it found it. |
| PoolTraces.RunConcat | src/core/Pool.java:52-246 | Running two traces one after the other is the same as running their concatenation. |
| PoolTraces.ApplyKeeps | src/core/Pool.java:52-246 | Every single monitor step keeps the weak invariant; every step outside the timed acquire keeps the balance. |
| PoolTraces.RunKeepsWellFormed | src/core/Pool.java:52-246 | No interleaving of monitor steps breaks the weak invariant. |
| PoolTraces.RunKeepsValid | src/core/Pool.java:52-246 | No interleaving that avoids the timed acquire breaks the balance. |
| PoolTraces.ReachableIsValid | src/core/Pool.java:20-32 | Every state reached from a fresh pool without the timed acquire is balanced, and its size is queued plus borrowed. |
| PoolDepartures.RemoveOfBorrowedDoesNotWait | src/core/Pool.java:127-141 | For a borrowed member the condition of the `remove` wait loop is false on entry. So `remove` returns true at once, erases the identifier, leaves the queue alone, and the holder's later `release` is refused. |
| PoolDepartures.RemoveNeverBlocks | src/core/Pool.java:122-155 | No call of `remove` parks, whatever the state. |
| PoolDepartures.TimedAcquireStrandsResource | src/core/Pool.java:194-222 | From a balanced open pool, the timed acquire hands out the head, which stays a member that is neither queued nor borrowed. The balance breaks, and releasing it is refused. |
| PoolDepartures.TimedAcquireStrandedCount | src/core/Pool.java:194-222 | After that timed acquire, the members outnumber the queued and borrowed resources together by exactly one. |
| PoolDepartures.TimedAcquireInflatesSize | src/core/Pool.java:61-63 | After that timed acquire, `getSize` reports one more than the number queued plus the number borrowed. |
| PoolDepartures.TimedAcquireWakeStrandsResource | src/core/Pool.java:208-221 | The same stranding happens when the resource arrives during the wait and the wake is before the deadline. |
| PoolDepartures.CloseCanLeavePoolOpen | src/core/Pool.java:77-93 | `close()` on an open pool with nothing borrowed returns with the pool still open. |
| PoolDepartures.CloseAfterWaitIsClosed | src/core/Pool.java:78-91 | A `close()` that parked lowers the gate on every wake, and returns only with the gate closed and nothing borrowed. |
| PoolDepartures.ParkedAcquireIgnoresClose | src/core/Pool.java:179-183 | In any open pool with members, an empty queue and a borrowed resource, `acquire()` parks; after `closeNow`, releasing that resource hands it to the woken waiter, since the wake re-polls without checking the gate. |
| PoolScenarios.AddTwice | src/core/TestCases.java:131-148 | Adding a new resource twice answers true then false; the size rises by exactly one and the second call changes nothing. |
| PoolScenarios.AddAllQueue | src/core/Pool.java:108-120 | Adding distinct new resources in turn queues them at the tail in the order added. |
| PoolScenarios.AddAllMembers | src/core/Pool.java:108-120 | Adding distinct new resources in turn makes the members the old ones plus exactly those. |
| PoolScenarios.AddAllGrowsSize | src/core/TestCases.java:227-235 | The size rises by exactly one per distinct resource added. |
| PoolScenarios.AcquireReleaseRotates | src/core/Pool.java:178-237 | Borrowing the head and returning it moves it to the queue's tail; members, borrowed set and gate end as they began. |
| PoolScenarios.AcquireReleaseAcquireSame | src/core/TestCases.java:114-123 | With one free resource in an open balanced pool, acquire, release, acquire yields that resource both times. |
| PoolScenarios.DoubleReleaseRejected | src/core/Pool.java:225-237 | A second release of the same resource is refused and leaves the state as the first left it, so nothing is queued twice. |
| PoolScenarios.RemoveErasesMember | src/core/TestCases.java:154-184 | After removing a member of a well-formed pool, it is in no collection; a second remove and a release are refused, and it can be added again. |
| PoolScenarios.RemoveNowErasesMember | src/core/Pool.java:157-172 | After `removeNow` of a member, it is in no collection; a second `removeNow` is refused and it can be added again. |
| PoolScenarios.AddThenRemoveNowRestores | src/core/Pool.java:108-172 | `removeNow` undoes an `add` of a new resource exactly. |
| PoolTypes.QueueRemoveAppended | src/core/Pool.java:162 | Removing an identifier just appended to a queue that lacked it restores the queue. |
| PoolScenarios.CloseDrains | src/core/TestCases.java:226-267 | With one resource out, `close()` parks; after that resource is released, the woken `close()` returns and the pool is closed. |
| PoolScenarios.RefusedAcquireChangesNothing | src/core/TestCases.java:272-283 | On a closed or memberless pool, both acquires return null and change nothing, whatever is queued. |
| PoolScenarios.TimedAcquireAfterRelease | src/core/TestCases.java:327-363 | With the only resource out, the timed acquire parks. After the release, a wake before the deadline returns that resource; a wake after it returns null. |
| PoolScenarios.RemoveWhileBorrowed | src/core/TestCases.java:190-221 | In the test's set-up, `remove` of the borrowed resource returns true without waiting. The holder's release is then refused and the resource can be added anew. |
| PoolIntended.Close | src/core/Pool.java:74-93 | The corrected `close` parks exactly while something is borrowed, leaving the state unchanged, and returns only with the gate closed; it changes no collection. |
| PoolIntended.CloseFixesOpenPool | src/core/Pool.java:74-93 | On an open pool with nothing borrowed, the code's `close` leaves it open and the corrected one closes it. |
| PoolIntended.RemoveWake | src/core/Pool.java:126-141 | The corrected wait loop of `remove` parks exactly while the resource is borrowed. Once it is not borrowed, the loop answers true and the members lose exactly that identifier. The queue loses its first position holding the identifier, and the rest keep their order; a queue without it is left identical. |
| PoolIntended.Remove | src/core/Pool.java:122-155 | The corrected `remove` refuses exactly null and non-members, parks exactly for a borrowed member, and answers true for a free member. For any member it runs the corrected wait loop, so on success the member is erased from the members and its first queued position is cut, with the borrowed set and the gate kept. |
| PoolIntended.RemoveWakeErases | src/core/Pool.java:126-141 | The corrected removal keeps the pool balanced, and on success the resource is in no collection. |
| PoolIntended.RemoveWaitsForBorrowed | src/core/Pool.java:127-141 | For a borrowed member, the code's `remove` returns true at once while the corrected one parks. |
| PoolIntended.TimedAcquire | src/core/Pool.java:194-202 | The corrected timed acquire refuses like `acquire()` and otherwise polls exactly as `acquire()` does. On a non-empty queue it returns the head and records it as borrowed. |
| PoolIntended.TimedAcquireWake | src/core/Pool.java:202-222 | The corrected wake returns a resource iff it is before the deadline and the queue is non-empty. That resource is the head: the queue loses exactly its head, which becomes borrowed, and the members and the gate are kept. Otherwise null with no change. |
| PoolIntended.TimedAcquireKeepsValid | src/core/Pool.java:194-222 | The corrected timed acquire keeps the pool balanced, and the resource it hands out can be released. |

## Left out

- `getPoolInstance` (src/core/Pool.java:39-47) is a lazily created global. The model passes an explicit state value instead.
- The unsynchronized `isOpen()` read (src/core/Pool.java:70-72) is a plain field read. It matters only under data races, which are not modelled.
- `clearResources` is unsynchronized (src/core/Pool.java:242-246). It is modelled as one atomic reset; a torn reset under races is not.
- `wait()`, `notifyAll()`, lost and spurious wakeups, and scheduling order are not modelled. A parked call is a `WouldBlock` outcome, and the caller of a wake function decides when the wake happens.
- An interrupted wait is not modelled. In the code, `acquire` and `remove` turn it into a thrown `Exception`, and `close` catches it and loops.
- Clock arithmetic in the timed acquire is not modelled: `System.currentTimeMillis`, `TimeUnit.convert`, and `wait(waitTime)`, including `wait(0)` meaning "no limit". It is reduced to the boolean `beforeDeadline`.
- A negative timeout makes `wait(waitTime)` (src/core/Pool.java:207) throw `IllegalArgumentException`. The model turns that call into a park like any other.
- The model lets a wake function run where the code sends no notification. Only `release` calls `notifyAll()` (src/core/Pool.java:230); `add` and `removeNow` do not. So in the code a parked `acquire()` is not woken by an `add`, and a parked `close()` is not woken by a `removeNow` of the last borrowed resource. The trace lemmas allow these wakes anyway. That over-approximates the code, which is sound for the invariants they prove.
- Console printing is left out.
- `R.java` draws a random UUID. Identifiers are a generic type assumed unique per resource, so reference equality on queued resources is identifier equality.
- `getSize` returns a boxed `Integer`. The model returns an unbounded `nat`; overflow past 2^31 - 1 members is not modelled.

## Findings

| source | as written | input that shows it | evidently intended | confidence | as-written member | corrected member |
|---|---|---|---|---|---|---|
| src/core/Pool.java:127-141 | `remove` of a borrowed member enters the branch only when the id is outstanding, but its loop waits only while the id is NOT outstanding. So it never waits: the resource is erased while still borrowed, and the queue is asked to remove a UUID, which matches nothing. | a pool with member x borrowed; `remove(x)` | wait until x is released, then take it out of the queue and the members | not executed | PoolDepartures.RemoveOfBorrowedDoesNotWait | PoolIntended.RemoveWakeErases |
| src/core/Pool.java:194-222 | the timed acquire pops the queue but never adds the id to the borrowed set (compare src/core/Pool.java:189). The resource is stranded: it stays a member, is neither queued nor borrowed, and its `release` is refused. | open pool with queue [x], nothing borrowed; `acquire(t, unit)` then `release(x)` | record the borrow as `acquire()` does, so that `release(x)` answers true | not executed | PoolDepartures.TimedAcquireStrandsResource | PoolIntended.TimedAcquireKeepsValid |
| src/core/Pool.java:77-93 | `close()` sets `isOpen = false` only inside its wait loop. With nothing borrowed it returns and leaves the pool open. | open pool with nothing borrowed; `close()` | close the pool once nothing is borrowed | not executed | PoolDepartures.CloseCanLeavePoolOpen | PoolIntended.CloseFixesOpenPool |

The main model (`Pool`, `PoolInvariant`, `PoolTraces`, `PoolScenarios`) keeps the
as-written behaviour, because its purpose is to describe what the class does.
`PoolIntended` reuses the shared state, queue and poll definitions. It supplies
only the three corrected methods, and proves their intended properties over the
same state.

=== FILE: pool.dfy ===
/** The monitor methods of the pool, each as one atomic transition.

    Every public method of the pool except `isOpen()` and `clearResources()`
    is synchronized, so a body runs without interference up to its first
    `wait()`; the reset is modelled as one atomic step too. A transition that reaches a
    `wait()` ends with `WouldBlock` and leaves the state as it was; the
    matching wake function runs the rest of the loop body once the thread is
    notified and holds the monitor again. Interrupts, the clock and
    notification order are not modelled: the caller of a wake function
    decides when it happens. */
module Pool {
  import opened PoolTypes

  /** `open()`: raises the gate and touches nothing else. */
  function Open<Id>(p: PoolState<Id>): (r: Step<Id, ()>)
    ensures r.outcome.Returned? && r.next.isOpen
    ensures r.next.queue == p.queue && r.next.members == p.members
    ensures r.next.outstanding == p.outstanding
  {
    Step(p.(isOpen := true), Returned(()))
  }

  /** `closeNow()`: lowers the gate at once; borrowed resources stay
      borrowed. */
  function CloseNow<Id>(p: PoolState<Id>): (r: Step<Id, ()>)
    ensures r.outcome.Returned? && !r.next.isOpen
    ensures r.next.queue == p.queue && r.next.members == p.members
    ensures r.next.outstanding == p.outstanding
  {
    Step(p.(isOpen := false), Returned(()))
  }

  /** `getSize()`: the number of members, wherever they are. */
  function GetSize<Id>(p: PoolState<Id>): (r: Step<Id, nat>)
    ensures r.next == p
    ensures r.outcome == Returned(|p.members|)
    ensures Valid(p) ==> r.outcome == Returned(|p.queue| + |p.outstanding|)
  {
    ValidSizeIfValid(p);
    Step(p, Returned(|p.members|))
  }

  /** Helper for `GetSize`: the size equation wherever it applies. */
  lemma ValidSizeIfValid<Id>(p: PoolState<Id>)
    ensures Valid(p) ==> |p.members| == |p.queue| + |p.outstanding|
  {
    if Valid(p) {
      ValidSize(p);
    }
  }

  /** `close()`: the `while (outgoingResource.size() > 0)` loop is entered
      only while something is borrowed. With nothing borrowed the method
      returns at once and the gate keeps whatever value it had; otherwise
      the thread parks before touching any field. */
  function Close<Id>(p: PoolState<Id>): (r: Step<Id, ()>)
    ensures r.next == p
    ensures r.outcome.Returned? <==> |p.outstanding| == 0
    ensures r.outcome.Returned? || r.outcome.WouldBlock?
  {
    if |p.outstanding| > 0 then Step(p, WouldBlock) else Step(p, Returned(()))
  }

  /** A parked `close()` is notified: the `finally` block lowers the gate,
      then the loop condition is checked again. */
  function CloseWake<Id>(p: PoolState<Id>): (r: Step<Id, ()>)
    ensures !r.next.isOpen
    ensures r.next.queue == p.queue && r.next.members == p.members
    ensures r.next.outstanding == p.outstanding
    ensures r.outcome.Returned? <==> |p.outstanding| == 0
    ensures r.outcome.Returned? || r.outcome.WouldBlock?
  {
    var q := p.(isOpen := false);
    if |q.outstanding| > 0 then Step(q, WouldBlock) else Step(q, Returned(()))
  }

  /** `add(resource)`: a new identifier is appended to the free queue and
      registered; a known one is refused; a null resource throws when its id
      is read. */
  function Add<Id(==)>(p: PoolState<Id>, h: Handle<Id>): (r: Step<Id, bool>)
    ensures h.Null? ==> r.next == p && r.outcome == NullPointer
    ensures h.Resource? ==> (r.outcome == Returned(true) <==> h.id !in p.members)
    ensures h.Resource? ==> r.outcome.Returned?
    ensures r.outcome == Returned(true) ==>
              && r.next.queue == p.queue + [h.id]
              && r.next.members == p.members + {h.id}
              && |r.next.members| == |p.members| + 1
              && r.next.outstanding == p.outstanding
              && r.next.isOpen == p.isOpen
    ensures r.outcome != Returned(true) ==> r.next == p
  {
    match h
    case Null => Step(p, NullPointer)
    case Resource(id) =>
      if id in p.members then Step(p, Returned(false))
      else Step(p.(queue := p.queue + [id], members := p.members + {id}), Returned(true))
  }

  /** The condition of the `while (!outgoingResource.contains(...))` wait
      loop inside `remove`: wait while the resource is NOT borrowed. */
  predicate RemoveMustWait<Id(==)>(p: PoolState<Id>, id: Id)
  {
    id !in p.outstanding
  }

  /** `remove(resource)` as written. A null or unknown resource is refused.
      A borrowed resource is reached only when it is outstanding, so the
      wait loop's condition is false on entry and the loop never runs: the
      identifier is dropped from the members and from the borrowed set, and
      the queue is asked to remove a UUID, which matches nothing. A free
      resource is taken out of the queue and the members. */
  function Remove<Id(==)>(p: PoolState<Id>, h: Handle<Id>): (r: Step<Id, bool>)
    ensures r.outcome.Returned?
    ensures r.outcome.value <==> h.Resource? && h.id in p.members
    ensures !r.outcome.value ==> r.next == p
    ensures r.outcome.value ==>
              && r.next.members == p.members - {h.id}
              && r.next.outstanding == p.outstanding - {h.id}
              && r.next.isOpen == p.isOpen
    ensures r.outcome.value && h.id in p.outstanding ==> r.next.queue == p.queue
    ensures r.outcome.value && h.id !in p.outstanding ==>
              multiset(r.next.queue) == multiset(p.queue) - multiset{h.id}
    ensures r.outcome.value && h.id !in p.outstanding && h.id in p.queue ==>
              r.next.queue ==
              p.queue[..IndexOf(p.queue, h.id)] + p.queue[IndexOf(p.queue, h.id) + 1..]
    ensures r.outcome.value && h.id !in p.queue ==> r.next.queue == p.queue
  {
    match h
    case Null => Step(p, Returned(false))
    case Resource(id) =>
      if id !in p.members then Step(p, Returned(false))
      else if id in p.outstanding then
        assert !RemoveMustWait(p, id);
        QueueRemoveUuidIsNoOp(p.queue, id);
        Step(p.(members := p.members - {id},
                queue := QueueRemove(p.queue, UuidArg(id)),
                outstanding := p.outstanding - {id}),
             Returned(true))
      else
        QueueRemoveCut(p.queue, id);
        Step(p.(queue := QueueRemove(p.queue, ResourceArg(id)),
                members := p.members - {id}),
             Returned(true))
  }

  /** Helper for `Remove` and `RemoveNow`: removing a resource from the
      queue cuts out its first position, or changes nothing when it is not
      queued. */
  lemma QueueRemoveCut<Id>(q: seq<Id>, x: Id)
    ensures x in q ==>
              QueueRemove(q, ResourceArg(x)) == q[..IndexOf(q, x)] + q[IndexOf(q, x) + 1..]
    ensures x !in q ==> QueueRemove(q, ResourceArg(x)) == q
  {
    if x in q {
      QueueRemoveFirst(q, ResourceArg(x));
    } else {
      QueueRemoveNoMatch(q, ResourceArg(x));
    }
  }

  /** `removeNow(resource)`: a member is erased from the queue, the members
      and the borrowed set without waiting; anything else is refused. */
  function RemoveNow<Id(==)>(p: PoolState<Id>, h: Handle<Id>): (r: Step<Id, bool>)
    ensures r.outcome.Returned?
    ensures r.outcome.value <==> h.Resource? && h.id in p.members
    ensures !r.outcome.value ==> r.next == p
    ensures r.outcome.value ==>
              && r.next.members == p.members - {h.id}
              && r.next.outstanding == p.outstanding - {h.id}
              && r.next.isOpen == p.isOpen
              && multiset(r.next.queue) ==
                 multiset(p.queue) - (if h.id in p.queue then multiset{h.id} else multiset{})
    ensures r.outcome.value && h.id in p.queue ==>
              r.next.queue ==
              p.queue[..IndexOf(p.queue, h.id)] + p.queue[IndexOf(p.queue, h.id) + 1..]
    ensures r.outcome.value && h.id !in p.queue ==> r.next.queue == p.queue
  {
    match h
    case Null => Step(p, Returned(false))
    case Resource(id) =>
      if id !in p.members then Step(p, Returned(false))
      else
        QueueRemoveCut(p.queue, id);
        Step(p.(queue := QueueRemove(p.queue, ResourceArg(id)),
                members := p.members - {id},
                outstanding := p.outstanding - {id}),
             Returned(true))
  }

  /** The `resources.poll()` of `acquire()`, which the
      `while (resource == null)` loop repeats after every wake: hand out the
      head of the queue and record it as borrowed, or park while the queue
      is empty. The gate is not consulted here. */
  function AcquireWake<Id(==)>(p: PoolState<Id>): (r: Step<Id, Option<Id>>)
    ensures r.outcome.WouldBlock? <==> |p.queue| == 0
    ensures r.outcome.WouldBlock? ==> r.next == p
    ensures |p.queue| > 0 ==> r.outcome == Returned(Some(p.queue[0]))
    ensures r.outcome.Returned? ==>
              && r.outcome.value == Some(p.queue[0])
              && p.queue == [p.queue[0]] + r.next.queue
              && r.next.outstanding == p.outstanding + {p.queue[0]}
              && r.next.members == p.members
              && r.next.isOpen == p.isOpen
  {
    if |p.queue| == 0 then Step(p, WouldBlock)
    else
      var head := p.queue[0];
      Step(p.(queue := p.queue[1..], outstanding := p.outstanding + {head}),
           Returned(Some(head)))
  }

  /** Whether the entry test shared by both acquires turns the caller away:
      the pool is closed or has no members. */
  predicate Refuses<Id>(p: PoolState<Id>)
  {
    !p.isOpen || |p.members| == 0
  }

  /** `acquire()`: a closed or memberless pool answers null at once;
      otherwise the queue is polled as in `AcquireWake`. */
  function Acquire<Id(==)>(p: PoolState<Id>): (r: Step<Id, Option<Id>>)
    ensures Refuses(p) ==> r == Step(p, Returned(None))
    ensures !Refuses(p) ==> r == AcquireWake(p)
    ensures r.outcome == Returned(None) <==> Refuses(p)
    ensures !Refuses(p) && |p.queue| > 0 ==> r.outcome == Returned(Some(p.queue[0]))
    ensures !Refuses(p) && |p.queue| == 0 ==> r == Step(p, WouldBlock)
  {
    if Refuses(p) then Step(p, Returned(None))
    else AcquireWake(p)
  }

  /** `acquire(timeout, unit)` up to its single `wait`: same entry test; a
      non-empty queue loses its head, which is returned WITHOUT being
      recorded as borrowed; an empty queue parks the caller. */
  function TimedAcquire<Id(==)>(p: PoolState<Id>): (r: Step<Id, Option<Id>>)
    ensures Refuses(p) ==> r == Step(p, Returned(None))
    ensures !Refuses(p) && |p.queue| == 0 ==> r == Step(p, WouldBlock)
    ensures !Refuses(p) && |p.queue| > 0 ==>
              && r.outcome == Returned(Some(p.queue[0]))
              && p.queue == [p.queue[0]] + r.next.queue
              && r.next.outstanding == p.outstanding
              && r.next.members == p.members
              && r.next.isOpen == p.isOpen
  {
    if Refuses(p) then Step(p, Returned(None))
    else if |p.queue| == 0 then Step(p, WouldBlock)
    else Step(p.(queue := p.queue[1..]), Returned(Some(p.queue[0])))
  }

  /** A parked timed acquire resumes. `beforeDeadline` abstracts the clock
      test `System.currentTimeMillis() <= (startTime + waitTime)`: if it
      holds, the queue is polled once (null when it is still empty), again
      without recording a borrow; otherwise the call times out with null.
      Either way there is no second wait. */
  function TimedAcquireWake<Id(==)>(p: PoolState<Id>, beforeDeadline: bool): (r: Step<Id, Option<Id>>)
    ensures r.outcome.Returned?
    ensures r.outcome.value.Some? <==> beforeDeadline && |p.queue| > 0
    ensures r.outcome.value.None? ==> r.next == p
    ensures r.outcome.value.Some? ==>
              && r.outcome.value.value == p.queue[0]
              && p.queue == [p.queue[0]] + r.next.queue
              && r.next.outstanding == p.outstanding
              && r.next.members == p.members
              && r.next.isOpen == p.isOpen
  {
    if beforeDeadline && |p.queue| > 0 then
      Step(p.(queue := p.queue[1..]), Returned(Some(p.queue[0])))
    else Step(p, Returned(None))
  }

  /** `release(resource)`: only a borrowed resource is taken back, at the
      tail of the queue; anything else (null, never borrowed, released
      twice, removed) is refused with no change. */
  function Release<Id(==)>(p: PoolState<Id>, h: Handle<Id>): (r: Step<Id, bool>)
    ensures r.outcome.Returned?
    ensures r.outcome.value <==> h.Resource? && h.id in p.outstanding
    ensures !r.outcome.value ==> r.next == p
    ensures r.outcome.value ==>
              && r.next.queue == p.queue + [h.id]
              && r.next.outstanding == p.outstanding - {h.id}
              && |r.next.outstanding| == |p.outstanding| - 1
              && r.next.members == p.members
              && r.next.isOpen == p.isOpen
  {
    match h
    case Null => Step(p, Returned(false))
    case Resource(id) =>
      if id in p.outstanding then
        Step(p.(queue := p.queue + [id], outstanding := p.outstanding - {id}), Returned(true))
      else Step(p, Returned(false))
  }

  /** `clearResources()`: forgets every resource and keeps the gate. */
  function ClearResources<Id>(p: PoolState<Id>): (r: Step<Id, ()>)
    ensures r.outcome.Returned? && r.next.isOpen == p.isOpen
    ensures |r.next.queue| == 0 && |r.next.members| == 0 && |r.next.outstanding| == 0
  {
    Step(PoolState(p.isOpen, [], {}, {}), Returned(()))
  }
}

=== FILE: pool_departures.dfy ===
/** Where the code does something other than what its comments and design
    promise. Each lemma states what the code as written does. */
module PoolDepartures {
  import opened PoolTypes
  import opened Pool
  import opened PoolInvariant

  /** `remove` of a borrowed member never parks: the wait loop's condition
      is false whenever the branch guarding it is taken. The identifier is
      erased at once, the queue is left alone, and the borrower's later
      `release` is refused. */
  lemma RemoveOfBorrowedDoesNotWait<Id>(p: PoolState<Id>, x: Id)
    requires x in p.members && x in p.outstanding
    ensures !RemoveMustWait(p, x)
    ensures Remove(p, Resource(x)).outcome == Returned(true)
    ensures Remove(p, Resource(x)).next.queue == p.queue
    ensures x !in Remove(p, Resource(x)).next.members
    ensures x !in Remove(p, Resource(x)).next.outstanding
    ensures Release(Remove(p, Resource(x)).next, Resource(x)).outcome == Returned(false)
  {
  }

  /** No call of `remove` ever parks, whatever the state and argument. */
  lemma RemoveNeverBlocks<Id>(p: PoolState<Id>, h: Handle<Id>)
    ensures !Remove(p, h).outcome.WouldBlock?
  {
  }

  /** The timed acquire hands out the head of the queue without recording
      it as borrowed. The resource stays a member that is neither queued nor
      borrowed, so the balance breaks and returning the resource is
      refused. */
  lemma TimedAcquireStrandsResource<Id>(p: PoolState<Id>)
    requires Valid(p) && p.isOpen && |p.queue| > 0
    ensures TimedAcquire(p).outcome == Returned(Some(p.queue[0]))
    ensures p.queue[0] in TimedAcquire(p).next.members
    ensures p.queue[0] !in Elems(TimedAcquire(p).next.queue)
    ensures p.queue[0] !in TimedAcquire(p).next.outstanding
    ensures !Valid(TimedAcquire(p).next)
    ensures Release(TimedAcquire(p).next, Resource(p.queue[0])).outcome == Returned(false)
  {
    assert p.queue[0] in Elems(p.queue);
    PopElems(p.queue);
  }

  /** ... and the members then outnumber the queued and the borrowed
      resources together by one: the stranded resource. */
  lemma TimedAcquireStrandedCount<Id>(p: PoolState<Id>)
    requires Valid(p) && p.isOpen && |p.queue| > 0
    ensures var n := TimedAcquire(p).next;
            |n.members| == |n.queue| + |n.outstanding| + 1
  {
    ValidSize(p);
  }

  /** So the size the pool reports counts the stranded resource too. */
  lemma TimedAcquireInflatesSize<Id>(p: PoolState<Id>)
    requires Valid(p) && p.isOpen && |p.queue| > 0
    ensures var n := TimedAcquire(p).next;
            GetSize(n).outcome == Returned(|n.queue| + |n.outstanding| + 1)
  {
    TimedAcquireStrandedCount(p);
  }

  /** The same holds when the resource arrives while the timed acquire is
      parked and the wake comes before the deadline. */
  lemma TimedAcquireWakeStrandsResource<Id>(p: PoolState<Id>)
    requires Valid(p) && |p.queue| > 0
    ensures TimedAcquireWake(p, true).outcome == Returned(Some(p.queue[0]))
    ensures p.queue[0] in TimedAcquireWake(p, true).next.members
    ensures p.queue[0] !in Elems(TimedAcquireWake(p, true).next.queue)
    ensures p.queue[0] !in TimedAcquireWake(p, true).next.outstanding
    ensures !Valid(TimedAcquireWake(p, true).next)
    ensures Release(TimedAcquireWake(p, true).next, Resource(p.queue[0])).outcome == Returned(false)
  {
    assert p.queue[0] in Elems(p.queue);
    PopElems(p.queue);
  }

  /** `close()` with nothing borrowed returns without touching the gate:
      an open pool stays open. */
  lemma CloseCanLeavePoolOpen<Id>(p: PoolState<Id>)
    requires p.isOpen && |p.outstanding| == 0
    ensures Close(p).outcome.Returned?
    ensures Close(p).next.isOpen
  {
  }

  /** A `close()` that had to park does lower the gate, and returns only
      once nothing is borrowed. */
  lemma CloseAfterWaitIsClosed<Id>(p: PoolState<Id>)
    requires |p.outstanding| > 0
    ensures Close(p).outcome.WouldBlock?
    ensures CloseWake(p).outcome.WouldBlock? && !CloseWake(p).next.isOpen
    ensures forall q: PoolState<Id> :: CloseWake(q).outcome.Returned? ==>
              !CloseWake(q).next.isOpen && |CloseWake(q).next.outstanding| == 0
  {
  }

  /** A parked `acquire()` re-polls without looking at the gate: in any
      pool where it parks, once the pool is closed, a release of a borrowed
      resource still hands that resource to the waiter. */
  lemma ParkedAcquireIgnoresClose<Id>(p: PoolState<Id>, x: Id)
    requires !Refuses(p) && |p.queue| == 0 && x in p.outstanding
    ensures Acquire(p).outcome.WouldBlock?
    ensures var closed := CloseNow(Acquire(p).next).next;
            && var back := Release(closed, Resource(x));
            && back.outcome == Returned(true)
            && !back.next.isOpen
            && AcquireWake(back.next).outcome == Returned(Some(x))
  {
  }
}

=== FILE: pool_intended.dfy ===
/** Corrected versions of the three methods whose code departs from their
    documented intent, each with the intended property proved. */
module PoolIntended {
  import opened PoolTypes
  import opened Pool
  import opened PoolInvariant

  /** `close()` as documented ("close the pool, but wait till I get back all
      the resources"): park while anything is borrowed, then lower the gate.
      A woken caller runs the same check again, so this is also the wake. */
  function Close<Id>(p: PoolState<Id>): (r: Step<Id, ()>)
    ensures r.outcome.Returned? || r.outcome.WouldBlock?
    ensures r.outcome.WouldBlock? <==> |p.outstanding| > 0
    ensures r.outcome.WouldBlock? ==> r.next == p
    ensures r.outcome.Returned? ==> !r.next.isOpen && |r.next.outstanding| == 0
    ensures r.next.queue == p.queue && r.next.members == p.members
    ensures r.next.outstanding == p.outstanding
  {
    if |p.outstanding| > 0 then Step(p, WouldBlock)
    else Step(p.(isOpen := false), Returned(()))
  }

  /** The corrected close differs from the code exactly on an open pool
      with nothing borrowed, where the code leaves the gate open. */
  lemma CloseFixesOpenPool<Id>(p: PoolState<Id>)
    requires p.isOpen && |p.outstanding| == 0
    ensures Pool.Close(p).next.isOpen
    ensures !Close(p).next.isOpen
  {
  }

  /** The body of the corrected wait loop in `remove`: wait while the
      resource is borrowed; once it is back, take it out of the queue (as a
      resource, not by UUID) and out of the members. */
  function RemoveWake<Id(==)>(p: PoolState<Id>, x: Id): (r: Step<Id, bool>)
    ensures r.outcome.WouldBlock? <==> x in p.outstanding
    ensures r.outcome.WouldBlock? ==> r.next == p
    ensures x !in p.outstanding ==> r.outcome == Returned(true)
    ensures r.outcome.Returned? && x in p.queue ==>
              r.next.queue == p.queue[..IndexOf(p.queue, x)] + p.queue[IndexOf(p.queue, x) + 1..]
    ensures r.outcome.Returned? && x !in p.queue ==> r.next.queue == p.queue
    ensures r.outcome.Returned? ==>
              && r.outcome.value
              && r.next.members == p.members - {x}
              && r.next.outstanding == p.outstanding
              && r.next.isOpen == p.isOpen
  {
    QueueRemoveCut(p.queue, x);
    if x in p.outstanding then Step(p, WouldBlock)
    else
      Step(p.(queue := QueueRemove(p.queue, ResourceArg(x)),
              members := p.members - {x}),
           Returned(true))
  }

  /** `remove(resource)` as intended: refuse what is not managed, otherwise
      wait for the resource to come home and then retire it. */
  function Remove<Id(==)>(p: PoolState<Id>, h: Handle<Id>): (r: Step<Id, bool>)
    ensures r.outcome == Returned(false) <==> h.Null? || h.id !in p.members
    ensures r.outcome.WouldBlock? <==> h.Resource? && h.id in p.members && h.id in p.outstanding
    ensures h.Resource? && h.id in p.members && h.id !in p.outstanding ==>
              r.outcome == Returned(true)
    ensures h.Resource? && h.id in p.members ==> r == RemoveWake(p, h.id)
    ensures r.outcome == Returned(true) ==>
              && r.next.members == p.members - {h.id}
              && r.next.outstanding == p.outstanding
              && r.next.isOpen == p.isOpen
    ensures r.outcome != Returned(true) ==> r.next == p
  {
    match h
    case Null => Step(p, Returned(false))
    case Resource(x) =>
      if x !in p.members then Step(p, Returned(false)) else RemoveWake(p, x)
  }

  /** The corrected remove never takes a borrowed resource away from its
      holder, keeps the pool balanced, and on success leaves the resource in
      none of the queue, the members or the borrowed set. */
  lemma RemoveWakeErases<Id>(p: PoolState<Id>, x: Id)
    requires Valid(p)
    ensures Valid(RemoveWake(p, x).next)
    ensures RemoveWake(p, x).outcome.Returned? ==>
              && x !in RemoveWake(p, x).next.members
              && x !in RemoveWake(p, x).next.outstanding
              && x !in Elems(RemoveWake(p, x).next.queue)
  {
    if x !in p.outstanding {
      var n := RemoveWake(p, x).next;
      QueueRemoveElems(p.queue, ResourceArg(x));
      QueueRemoveNoDup(p.queue, ResourceArg(x));
      assert n.queue == QueueRemove(p.queue, ResourceArg(x));
      assert Elems(n.queue) == Elems(p.queue) - {x};
    }
  }

  /** Where the code removes a borrowed member at once, the corrected
      remove parks. */
  lemma RemoveWaitsForBorrowed<Id>(p: PoolState<Id>, x: Id)
    requires x in p.members && x in p.outstanding
    ensures Pool.Remove(p, Resource(x)).outcome == Returned(true)
    ensures Remove(p, Resource(x)).outcome.WouldBlock?
  {
  }

  /** The timed acquire as intended: the resource handed out is recorded as
      borrowed, as the untimed acquire does. */
  function TimedAcquire<Id(==)>(p: PoolState<Id>): (r: Step<Id, Option<Id>>)
    ensures Refuses(p) ==> r == Step(p, Returned(None))
    ensures !Refuses(p) ==> r == AcquireWake(p)
    ensures !Refuses(p) && |p.queue| > 0 ==>
              && r.outcome == Returned(Some(p.queue[0]))
              && r.next.outstanding == p.outstanding + {p.queue[0]}
  {
    if Refuses(p) then Step(p, Returned(None))
    else AcquireWake(p)
  }

  /** The wake of the corrected timed acquire: one poll before the
      deadline, recording the borrow; null otherwise. */
  function TimedAcquireWake<Id(==)>(p: PoolState<Id>, beforeDeadline: bool): (r: Step<Id, Option<Id>>)
    ensures r.outcome.Returned?
    ensures r.outcome.value.Some? <==> beforeDeadline && |p.queue| > 0
    ensures r.outcome.value.None? ==> r.next == p
    ensures r.outcome.value.Some? ==> r.outcome.value.value in r.next.outstanding
    ensures r.outcome.value.Some? ==>
              && r.outcome.value.value == p.queue[0]
              && p.queue == [p.queue[0]] + r.next.queue
              && r.next.outstanding == p.outstanding + {p.queue[0]}
              && r.next.members == p.members
              && r.next.isOpen == p.isOpen
  {
    if beforeDeadline && |p.queue| > 0 then AcquireWake(p) else Step(p, Returned(None))
  }

  /** The corrected timed acquire keeps the pool balanced, and the resource
      it hands out can be released again. */
  lemma TimedAcquireKeepsValid<Id>(p: PoolState<Id>, beforeDeadline: bool)
    requires Valid(p)
    ensures Valid(TimedAcquire(p).next)
    ensures Valid(TimedAcquireWake(p, beforeDeadline).next)
    ensures TimedAcquire(p).outcome.Returned? && TimedAcquire(p).outcome.value.Some? ==>
              Release(TimedAcquire(p).next,
                      Resource(TimedAcquire(p).outcome.value.value)).outcome == Returned(true)
  {
    AcquireKeepsValid(p);
  }
}

=== FILE: pool_invariant.dfy ===
/** Which transitions keep which invariant.

    Every transition keeps `WellFormed`. Every transition except the two
    halves of the timed acquire also keeps `Valid`, the balance
    "members = queued + borrowed". */
module PoolInvariant {
  import opened PoolTypes
  import opened Pool

  /** Removing the head of a duplicate-free queue removes exactly its
      identifier from the queue's contents. */
  lemma PopElems<Id>(q: seq<Id>)
    requires NoDup(q) && |q| > 0
    ensures NoDup(q[1..])
    ensures Elems(q[1..]) == Elems(q) - {q[0]}
  {
    NoDupTail(q);
    assert Elems(q) == {q[0]} + Elems(q[1..]);
  }

  /** Appending an absent identifier keeps a queue duplicate-free and adds
      exactly that identifier to its contents. */
  lemma AppendElems<Id>(q: seq<Id>, x: Id)
    requires NoDup(q) && x !in Elems(q)
    ensures NoDup(q + [x])
    ensures Elems(q + [x]) == Elems(q) + {x}
  {
    var r := q + [x];
    forall i, j | 0 <= i < j < |r| ensures r[i] != r[j] {
      assert r[i] == q[i];
      if j < |q| {
        assert r[j] == q[j];
      } else {
        assert q[i] in Elems(q);
      }
    }
    assert Elems(r) == Elems(q) + {x};
  }

  /** The lifecycle methods, the size query and the reset change no
      collection in a way either invariant can see. */
  lemma LifecycleKeepsValid<Id>(p: PoolState<Id>)
    requires WellFormed(p)
    ensures WellFormed(Open(p).next) && WellFormed(CloseNow(p).next)
    ensures WellFormed(Close(p).next) && WellFormed(CloseWake(p).next)
    ensures WellFormed(GetSize(p).next) && Valid(ClearResources(p).next)
    ensures Valid(p) ==> Valid(Open(p).next) && Valid(CloseNow(p).next)
    ensures Valid(p) ==> Valid(Close(p).next) && Valid(CloseWake(p).next)
    ensures Valid(p) ==> Valid(GetSize(p).next)
  {
    assert Elems<Id>([]) == {};
  }

  lemma AddKeepsValid<Id>(p: PoolState<Id>, h: Handle<Id>)
    requires WellFormed(p)
    ensures WellFormed(Add(p, h).next)
    ensures Valid(p) ==> Valid(Add(p, h).next)
  {
    if h.Resource? && h.id !in p.members {
      AppendElems(p.queue, h.id);
    }
  }

  lemma ReleaseKeepsValid<Id>(p: PoolState<Id>, h: Handle<Id>)
    requires WellFormed(p)
    ensures WellFormed(Release(p, h).next)
    ensures Valid(p) ==> Valid(Release(p, h).next)
  {
    if h.Resource? && h.id in p.outstanding {
      AppendElems(p.queue, h.id);
    }
  }

  lemma AcquireKeepsValid<Id>(p: PoolState<Id>)
    requires WellFormed(p)
    ensures WellFormed(AcquireWake(p).next) && WellFormed(Acquire(p).next)
    ensures Valid(p) ==> Valid(AcquireWake(p).next) && Valid(Acquire(p).next)
  {
    if |p.queue| > 0 {
      PopElems(p.queue);
    }
  }

  /** The timed acquire keeps the weaker invariant only. */
  lemma TimedAcquireKeepsWellFormed<Id>(p: PoolState<Id>, beforeDeadline: bool)
    requires WellFormed(p)
    ensures WellFormed(TimedAcquire(p).next)
    ensures WellFormed(TimedAcquireWake(p, beforeDeadline).next)
  {
    if |p.queue| > 0 {
      PopElems(p.queue);
    }
  }

  lemma RemoveKeepsValid<Id>(p: PoolState<Id>, h: Handle<Id>)
    requires WellFormed(p)
    ensures WellFormed(Remove(p, h).next)
    ensures Valid(p) ==> Valid(Remove(p, h).next)
  {
    if h.Resource? && h.id in p.members {
      var n := Remove(p, h).next;
      if h.id in p.outstanding {
        assert n.queue == p.queue;
        assert h.id !in Elems(p.queue);
      } else {
        QueueRemoveElems(p.queue, ResourceArg(h.id));
        QueueRemoveNoDup(p.queue, ResourceArg(h.id));
        assert n.queue == QueueRemove(p.queue, ResourceArg(h.id));
        assert Elems(n.queue) == Elems(p.queue) - {h.id};
      }
    }
  }

  lemma RemoveNowKeepsValid<Id>(p: PoolState<Id>, h: Handle<Id>)
    requires WellFormed(p)
    ensures WellFormed(RemoveNow(p, h).next)
    ensures Valid(p) ==> Valid(RemoveNow(p, h).next)
  {
    if h.Resource? && h.id in p.members {
      var x := h.id;
      assert RemoveNow(p, h).next ==
             p.(queue := QueueRemove(p.queue, ResourceArg(x)),
                members := p.members - {x},
                outstanding := p.outstanding - {x});
      EraseKeepsValid(p, x);
    }
  }

  /** Erasing an identifier from the queue, the members and the borrowed
      set, as `removeNow` does, keeps both invariants. */
  lemma EraseKeepsValid<Id>(p: PoolState<Id>, x: Id)
    requires WellFormed(p)
    ensures var n := p.(queue := QueueRemove(p.queue, ResourceArg(x)),
                        members := p.members - {x},
                        outstanding := p.outstanding - {x});
            && WellFormed(n)
            && (Valid(p) ==> Valid(n))
  {
    QueueRemoveElems(p.queue, ResourceArg(x));
    QueueRemoveNoDup(p.queue, ResourceArg(x));
  }
}

=== FILE: pool_scenarios.dfy ===
/** The behaviours the pool's test cases exercise, stated for every state
    that meets their set-up rather than for one run. */
module PoolScenarios {
  import opened PoolTypes
  import opened Pool
  import opened PoolInvariant

  /** Adding a new resource twice answers true, then false; the size goes
      up by one and then stays. */
  lemma AddTwice<Id>(p: PoolState<Id>, x: Id)
    requires x !in p.members
    ensures var first := Add(p, Resource(x));
            && first.outcome == Returned(true)
            && GetSize(first.next).outcome == Returned(|p.members| + 1)
            && var second := Add(first.next, Resource(x));
            && second.outcome == Returned(false)
            && second.next == first.next
  {
  }

  /** Registers the resources in order, as a sequence of `add` calls. */
  function AddAll<Id(==)>(p: PoolState<Id>, xs: seq<Id>): PoolState<Id>
    decreases |xs|
  {
    if |xs| == 0 then p else AddAll(Add(p, Resource(xs[0])).next, xs[1..])
  }

  /** Adding distinct new resources one after another queues them in the
      order added. */
  lemma {:induction false} AddAllQueue<Id>(p: PoolState<Id>, xs: seq<Id>)
    requires NoDup(xs) && Elems(xs) !! p.members
    ensures AddAll(p, xs).queue == p.queue + xs
    decreases |xs|
  {
    if |xs| > 0 {
      var x := xs[0];
      var n := p.(queue := p.queue + [x], members := p.members + {x});
      AddAllQueueStep(p, xs);
      AddAllQueue(n, xs[1..]);
      assert xs == [x] + xs[1..];
      assert p.queue + xs == n.queue + xs[1..];
    }
  }

  /** The inductive step of `AddAllQueue`: the rest of the list still
      meets its requirements after the first resource is added. */
  lemma AddAllQueueStep<Id>(p: PoolState<Id>, xs: seq<Id>)
    requires NoDup(xs) && Elems(xs) !! p.members && |xs| > 0
    ensures var n := p.(queue := p.queue + [xs[0]], members := p.members + {xs[0]});
            && AddAll(p, xs) == AddAll(n, xs[1..])
            && NoDup(xs[1..]) && Elems(xs[1..]) !! n.members
  {
    assert xs[0] in Elems(xs);
    NoDupTail(xs);
    assert Elems(xs) == {xs[0]} + Elems(xs[1..]);
  }

  /** ... and registers exactly them. */
  lemma {:induction false} AddAllMembers<Id>(p: PoolState<Id>, xs: seq<Id>)
    requires NoDup(xs) && Elems(xs) !! p.members
    ensures AddAll(p, xs).members == p.members + Elems(xs)
    decreases |xs|
  {
    if |xs| > 0 {
      var x := xs[0];
      AddAllQueueStep(p, xs);
      AddAllMembers(p.(queue := p.queue + [x], members := p.members + {x}), xs[1..]);
    }
  }

  /** ... so the size rises by exactly one per distinct resource. */
  lemma AddAllGrowsSize<Id>(p: PoolState<Id>, xs: seq<Id>)
    requires NoDup(xs) && Elems(xs) !! p.members
    ensures |AddAll(p, xs).members| == |p.members| + |xs|
  {
    AddAllMembers(p, xs);
    NoDupCard(xs);
    assert |p.members + Elems(xs)| == |p.members| + |Elems(xs)|;
  }

  /** Borrowing the head and handing it back moves it to the tail: members
      and the borrowed set end as they began. */
  lemma AcquireReleaseRotates<Id>(p: PoolState<Id>)
    requires Valid(p) && p.isOpen && |p.queue| > 0
    ensures var a := Acquire(p);
            && a.outcome == Returned(Some(p.queue[0]))
            && var b := Release(a.next, Resource(p.queue[0]));
            && b.outcome == Returned(true)
            && b.next.queue == p.queue[1..] + [p.queue[0]]
            && b.next.outstanding == p.outstanding
            && b.next.members == p.members
            && b.next.isOpen
  {
    assert p.queue[0] in Elems(p.queue);
  }

  /** With one free resource, acquire, release and acquire again yields the
      same resource both times. */
  lemma AcquireReleaseAcquireSame<Id>(p: PoolState<Id>, x: Id)
    requires Valid(p) && p.isOpen && p.queue == [x]
    ensures Acquire(p).outcome == Returned(Some(x))
    ensures Release(Acquire(p).next, Resource(x)).outcome == Returned(true)
    ensures Acquire(Release(Acquire(p).next, Resource(x)).next).outcome == Returned(Some(x))
  {
    AcquireReleaseRotates(p);
  }

  /** Releasing twice: the second release is refused and changes nothing,
      so the resource is queued once. */
  lemma DoubleReleaseRejected<Id>(p: PoolState<Id>, x: Id)
    requires x in p.outstanding
    ensures Release(p, Resource(x)).outcome == Returned(true)
    ensures Release(Release(p, Resource(x)).next, Resource(x)).outcome == Returned(false)
    ensures Release(Release(p, Resource(x)).next, Resource(x)).next == Release(p, Resource(x)).next
  {
  }

  /** A member of a well-formed pool is removed once: afterwards it is
      nowhere, a second removal is refused, a release is refused, and adding
      it again succeeds. */
  lemma RemoveErasesMember<Id>(p: PoolState<Id>, x: Id)
    requires WellFormed(p) && x in p.members
    ensures var r := Remove(p, Resource(x));
            && r.outcome == Returned(true)
            && x !in r.next.members && x !in r.next.outstanding && x !in Elems(r.next.queue)
            && Remove(r.next, Resource(x)).outcome == Returned(false)
            && Release(r.next, Resource(x)).outcome == Returned(false)
            && Add(r.next, Resource(x)).outcome == Returned(true)
  {
    RemoveKeepsValid(p, Resource(x));
  }

  /** The same for `removeNow`, in any well-formed pool. */
  lemma RemoveNowErasesMember<Id>(p: PoolState<Id>, x: Id)
    requires WellFormed(p) && x in p.members
    ensures var r := RemoveNow(p, Resource(x));
            && r.outcome == Returned(true)
            && x !in r.next.members && x !in r.next.outstanding && x !in Elems(r.next.queue)
            && RemoveNow(r.next, Resource(x)).outcome == Returned(false)
            && Add(r.next, Resource(x)).outcome == Returned(true)
  {
    RemoveNowKeepsValid(p, Resource(x));
  }

  /** Adding a new resource and removing it at once restores the pool. */
  lemma AddThenRemoveNowRestores<Id>(p: PoolState<Id>, x: Id)
    requires WellFormed(p) && x !in p.members
    ensures RemoveNow(Add(p, Resource(x)).next, Resource(x)).next == p
  {
    assert x !in Elems(p.queue);
    assert x !in p.queue;
    QueueRemoveAppended(p.queue, x);
  }

  /** A courteous close with one resource out parks; once the resource is
      returned, the woken close completes and the pool is closed. */
  lemma CloseDrains<Id>(p: PoolState<Id>, x: Id)
    requires p.outstanding == {x}
    ensures Close(p).outcome.WouldBlock?
    ensures Release(p, Resource(x)).outcome == Returned(true)
    ensures CloseWake(Release(p, Resource(x)).next).outcome.Returned?
    ensures !CloseWake(Release(p, Resource(x)).next).next.isOpen
  {
    assert p.outstanding - {x} == {};
  }

  /** A closed or memberless pool turns both acquires away, whatever is
      queued, and changes nothing. */
  lemma RefusedAcquireChangesNothing<Id>(p: PoolState<Id>)
    requires Refuses(p)
    ensures Acquire(p) == Step(p, Returned(None))
    ensures TimedAcquire(p) == Step(p, Returned(None))
  {
  }

  /** The timed acquire test cases: the only resource is out; if it is
      returned and the waiter wakes before its deadline, the waiter gets it;
      if the deadline passes first, the waiter gets null. */
  lemma TimedAcquireAfterRelease<Id>(p: PoolState<Id>, x: Id)
    requires Valid(p) && p.isOpen && p.queue == [] && x in p.outstanding
    ensures TimedAcquire(p).outcome.WouldBlock?
    ensures var back := Release(p, Resource(x)).next;
            && TimedAcquireWake(back, true).outcome == Returned(Some(x))
            && TimedAcquireWake(back, false).outcome == Returned(None)
  {
  }

  /** The remove-while-borrowed test: one thread borrows, another removes
      the same resource and succeeds straight away; the holder's release is
      then refused and the identifier can be added anew. */
  lemma RemoveWhileBorrowed<Id>(x: Id)
    ensures var p := PoolState(true, [x], {}, {x});
            && var a := Acquire(p);
            && a.outcome == Returned(Some(x))
            && var r := Remove(a.next, Resource(x));
            && r.outcome == Returned(true)
            && Release(r.next, Resource(x)).outcome == Returned(false)
            && Add(r.next, Resource(x)).outcome == Returned(true)
  {
  }
}

=== FILE: pool_traces.dfy ===
/** Interleavings of monitor transitions.

    Every method body except the unsynchronized `isOpen()` read and
    `clearResources()` runs under the pool's lock; the reset is taken here
    as atomic too. So any concurrent run is observed as a sequence of atomic
    steps: method entries and wakes of parked callers, in some order. A
    trace lists those steps. */
module PoolTraces {
  import opened PoolTypes
  import opened Pool
  import opened PoolInvariant

  datatype Op<Id> =
    | OpOpen
    | OpClose
    | OpCloseWake
    | OpCloseNow
    | OpGetSize
    | OpAdd(h: Handle<Id>)
    | OpRemove(h: Handle<Id>)
    | OpRemoveNow(h: Handle<Id>)
    | OpAcquire
    | OpAcquireWake
    | OpTimedAcquire
    | OpTimedAcquireWake(beforeDeadline: bool)
    | OpRelease(h: Handle<Id>)
    | OpClearResources

  /** Whether the step belongs to the timed acquire. */
  predicate Timed<Id>(op: Op<Id>)
  {
    op.OpTimedAcquire? || op.OpTimedAcquireWake?
  }

  /** Whether the step may move the gate: only `open()`, `closeNow()` and
      the `finally` of a woken `close()` assign `isOpen`. */
  predicate MovesGate<Id>(op: Op<Id>)
  {
    op.OpOpen? || op.OpCloseNow? || op.OpCloseWake?
  }

  /** The state after one step. */
  function Apply<Id(==)>(p: PoolState<Id>, op: Op<Id>): (r: PoolState<Id>)
    ensures !MovesGate(op) ==> r.isOpen == p.isOpen
    ensures op.OpOpen? ==> r.isOpen
    ensures op.OpCloseNow? || op.OpCloseWake? ==> !r.isOpen
  {
    match op
    case OpOpen => Open(p).next
    case OpClose => Close(p).next
    case OpCloseWake => CloseWake(p).next
    case OpCloseNow => CloseNow(p).next
    case OpGetSize => GetSize(p).next
    case OpAdd(h) => Add(p, h).next
    case OpRemove(h) => Remove(p, h).next
    case OpRemoveNow(h) => RemoveNow(p, h).next
    case OpAcquire => Acquire(p).next
    case OpAcquireWake => AcquireWake(p).next
    case OpTimedAcquire => TimedAcquire(p).next
    case OpTimedAcquireWake(b) => TimedAcquireWake(p, b).next
    case OpRelease(h) => Release(p, h).next
    case OpClearResources => ClearResources(p).next
  }

  /** The state after a whole trace. A trace with no gate step leaves the
      gate as it found it, whatever else it does. */
  function Run<Id(==)>(p: PoolState<Id>, ops: seq<Op<Id>>): (r: PoolState<Id>)
    ensures (forall i | 0 <= i < |ops| :: !MovesGate(ops[i])) ==> r.isOpen == p.isOpen
    decreases |ops|
  {
    if |ops| == 0 then p
    else
      assert forall i | 0 <= i < |ops[1..]| :: ops[1..][i] == ops[i + 1];
      Run(Apply(p, ops[0]), ops[1..])
  }

  /** Running two traces one after the other is running their
      concatenation. */
  lemma {:induction false} RunConcat<Id>(p: PoolState<Id>, a: seq<Op<Id>>, b: seq<Op<Id>>)
    ensures Run(p, a + b) == Run(Run(p, a), b)
    decreases |a|
  {
    if |a| > 0 {
      assert (a + b)[0] == a[0];
      assert (a + b)[1..] == a[1..] + b;
      RunConcat(Apply(p, a[0]), a[1..], b);
    } else {
      assert a + b == b;
    }
  }

  /** One step keeps the weak invariant, and keeps the balance unless it is
      part of a timed acquire. */
  lemma ApplyKeeps<Id>(p: PoolState<Id>, op: Op<Id>)
    requires WellFormed(p)
    ensures WellFormed(Apply(p, op))
    ensures Valid(p) && !Timed(op) ==> Valid(Apply(p, op))
  {
    match op
    case OpOpen => LifecycleKeepsValid(p);
    case OpClose => LifecycleKeepsValid(p);
    case OpCloseWake => LifecycleKeepsValid(p);
    case OpCloseNow => LifecycleKeepsValid(p);
    case OpGetSize => LifecycleKeepsValid(p);
    case OpAdd(h) => AddKeepsValid(p, h);
    case OpRemove(h) => RemoveKeepsValid(p, h);
    case OpRemoveNow(h) => RemoveNowKeepsValid(p, h);
    case OpAcquire => AcquireKeepsValid(p);
    case OpAcquireWake => AcquireKeepsValid(p);
    case OpTimedAcquire => TimedAcquireKeepsWellFormed(p, false);
    case OpTimedAcquireWake(b) => TimedAcquireKeepsWellFormed(p, b);
    case OpRelease(h) => ReleaseKeepsValid(p, h);
    case OpClearResources => LifecycleKeepsValid(p);
  }

  /** No interleaving of any steps breaks the weak invariant. */
  lemma {:induction false} RunKeepsWellFormed<Id>(p: PoolState<Id>, ops: seq<Op<Id>>)
    requires WellFormed(p)
    ensures WellFormed(Run(p, ops))
    decreases |ops|
  {
    if |ops| > 0 {
      ApplyKeeps(p, ops[0]);
      RunKeepsWellFormed(Apply(p, ops[0]), ops[1..]);
    }
  }

  /** No interleaving that avoids the timed acquire breaks the balance. */
  lemma {:induction false} RunKeepsValid<Id>(p: PoolState<Id>, ops: seq<Op<Id>>)
    requires Valid(p)
    requires forall i | 0 <= i < |ops| :: !Timed(ops[i])
    ensures Valid(Run(p, ops))
    decreases |ops|
  {
    if |ops| > 0 {
      ApplyKeeps(p, ops[0]);
      RunKeepsValid(Apply(p, ops[0]), ops[1..]);
    }
  }

  /** Starting from a fresh pool, every state reached without the timed
      acquire is balanced, so its size is queued plus borrowed. */
  lemma ReachableIsValid<Id>(ops: seq<Op<Id>>)
    requires forall i | 0 <= i < |ops| :: !Timed(ops[i])
    ensures Valid(Run(Fresh<Id>(), ops))
    ensures |Run(Fresh<Id>(), ops).members| ==
            |Run(Fresh<Id>(), ops).queue| + |Run(Fresh<Id>(), ops).outstanding|
  {
    assert Elems<Id>([]) == {};
    RunKeepsValid(Fresh<Id>(), ops);
    ValidSize(Run(Fresh<Id>(), ops));
  }
}

=== FILE: pool_types.dfy ===
/** The state of a resource pool and the free queue it keeps.

    A resource is known to the pool only by its identifier (a UUID in the
    original), so every collection here is over a generic `Id` type with
    equality. Identifiers are taken to be unique per resource object, which
    lets the queue of resource objects be a sequence of identifiers. */
module PoolTypes {

  datatype Option<T> = None | Some(value: T)

  /** What a caller hands to the pool: a null reference or a resource. */
  datatype Handle<Id> = Null | Resource(id: Id)

  /** The argument of the free queue's `remove(Object)`: either a resource
      object or a bare UUID. The queue holds resources, so a UUID is never
      equal to any of its elements. */
  datatype QueueArg<Id> = ResourceArg(id: Id) | UuidArg(uuid: Id)

  /** The monitor's fields: the open gate, the FIFO queue of free resources,
      the identifiers currently borrowed and the identifiers of all members. */
  datatype PoolState<Id> = PoolState(
    isOpen: bool,
    queue: seq<Id>,
    outstanding: set<Id>,
    members: set<Id>
  )

  /** How one atomic run of a monitor method ends: it returns a value, it
      reaches a `wait()` (the calling thread parks), or it throws because a
      null resource was dereferenced. */
  datatype Outcome<T> = Returned(value: T) | WouldBlock | NullPointer

  /** The state after a transition together with its outcome. */
  datatype Step<Id, T> = Step(next: PoolState<Id>, outcome: Outcome<T>)

  /** A freshly constructed pool: closed, with nothing in it. */
  function Fresh<Id>(): (p: PoolState<Id>)
    ensures !p.isOpen && |p.queue| == 0 && |p.members| == 0 && |p.outstanding| == 0
  {
    PoolState(false, [], {}, {})
  }

  /** The identifiers present in the free queue. */
  function Elems<Id>(q: seq<Id>): set<Id>
  {
    set x | x in q
  }

  predicate NoDup<Id(==)>(q: seq<Id>)
  {
    forall i, j :: 0 <= i < j < |q| ==> q[i] != q[j]
  }

  /** The invariant every transition of the monitor keeps, timed acquire
      included: borrowed and queued resources are members, nothing is queued
      twice, and nothing is both queued and borrowed. */
  predicate WellFormed<Id(==)>(p: PoolState<Id>)
  {
    && p.outstanding <= p.members
    && NoDup(p.queue)
    && Elems(p.queue) <= p.members
    && Elems(p.queue) !! p.outstanding
  }

  /** The balance the design promises: in addition, every member is either
      queued or borrowed. */
  predicate Valid<Id(==)>(p: PoolState<Id>)
  {
    WellFormed(p) && p.members == Elems(p.queue) + p.outstanding
  }

  /** Whether the queue's `remove(Object)` treats `arg` as equal to the
      queued resource `e`: only a resource with that identifier does. */
  predicate Matches<Id(==)>(arg: QueueArg<Id>, e: Id)
  {
    arg.ResourceArg? && arg.id == e
  }

  /** Whether some element of `q` matches `arg`. */
  predicate Targets<Id(==)>(q: seq<Id>, arg: QueueArg<Id>)
  {
    arg.ResourceArg? && arg.id in q
  }

  /** The position of the first occurrence of `x` in `q`. */
  function IndexOf<Id(==)>(q: seq<Id>, x: Id): (i: nat)
    requires x in q
    ensures i < |q| && q[i] == x
    ensures x !in q[..i]
  {
    if q[0] == x then 0
    else
      assert x in q[1..] by {
        assert q == [q[0]] + q[1..];
      }
      1 + IndexOf(q[1..], x)
  }

  /** `Queue.remove(Object)`: drops the first element equal to `arg`, and
      leaves the queue alone when there is none. That the elements kept stay
      in their order is `QueueRemoveFirst` below. */
  function QueueRemove<Id(==)>(q: seq<Id>, arg: QueueArg<Id>): (r: seq<Id>)
    ensures Targets(q, arg) ==> multiset(r) == multiset(q) - multiset{arg.id}
    ensures !Targets(q, arg) ==> multiset(r) == multiset(q)
    ensures |r| == if Targets(q, arg) then |q| - 1 else |q|
  {
    if |q| == 0 then q
    else
      assert q == [q[0]] + q[1..];
      if Matches(arg, q[0]) then
        assert multiset(q) == multiset{q[0]} + multiset(q[1..]);
        q[1..]
      else
        [q[0]] + QueueRemove(q[1..], arg)
  }

  /** Cutting position `j` out of `t` and putting `h` in front is cutting
      position `j + 1` out of `[h] + t`. */
  lemma ConsSplice<Id>(h: Id, t: seq<Id>, j: nat)
    requires j < |t|
    ensures [h] + (t[..j] + t[j + 1..]) == ([h] + t)[..j + 1] + ([h] + t)[j + 2..]
  {
    var q := [h] + t;
    assert q[..j + 1] == [h] + t[..j];
    assert q[j + 2..] == t[j + 1..];
  }

  /** When the head does not match, the first match lies in the tail, one
      position further on, and cutting it there cuts it in `q`. */
  lemma SkipHead<Id>(q: seq<Id>, arg: QueueArg<Id>)
    requires |q| > 0 && !Matches(arg, q[0])
    ensures Targets(q, arg) <==> Targets(q[1..], arg)
    ensures Targets(q, arg) ==>
              var j := IndexOf(q[1..], arg.id);
              && IndexOf(q, arg.id) == j + 1
              && [q[0]] + (q[1..][..j] + q[1..][j + 1..]) == q[..j + 1] + q[j + 2..]
  {
    assert q == [q[0]] + q[1..];
    if Targets(q, arg) {
      ConsSplice(q[0], q[1..], IndexOf(q[1..], arg.id));
    }
  }

  /** Removal cuts out exactly the first matching position and keeps every
      other element in its order. */
  lemma {:induction false} QueueRemoveFirst<Id>(q: seq<Id>, arg: QueueArg<Id>)
    requires Targets(q, arg)
    ensures QueueRemove(q, arg) == q[..IndexOf(q, arg.id)] + q[IndexOf(q, arg.id) + 1..]
  {
    if !Matches(arg, q[0]) {
      SkipHead(q, arg);
      QueueRemoveFirst(q[1..], arg);
      QueueRemoveCons(q, arg);
    }
  }

  /** With nothing to match, removal leaves the queue exactly as it was,
      order included. */
  lemma {:induction false} QueueRemoveNoMatch<Id>(q: seq<Id>, arg: QueueArg<Id>)
    requires !Targets(q, arg)
    ensures QueueRemove(q, arg) == q
  {
    if |q| > 0 {
      assert q[0] in q;
      assert q == [q[0]] + q[1..];
      QueueRemoveNoMatch(q[1..], arg);
    }
  }

  /** Removing by UUID from a queue of resources never removes anything. */
  lemma QueueRemoveUuidIsNoOp<Id>(q: seq<Id>, u: Id)
    ensures QueueRemove(q, UuidArg(u)) == q
  {
    QueueRemoveNoMatch(q, UuidArg(u));
  }

  /** Removing an identifier that was appended to a queue not holding it
      gives back the original queue. */
  lemma {:induction false} QueueRemoveAppended<Id>(q: seq<Id>, x: Id)
    requires x !in q
    ensures QueueRemove(q + [x], ResourceArg(x)) == q
  {
    if |q| > 0 {
      assert (q + [x])[0] == q[0];
      assert (q + [x])[1..] == q[1..] + [x];
      assert q[0] in q;
      QueueRemoveAppended(q[1..], x);
      assert q == [q[0]] + q[1..];
    }
  }

  /** The tail of a duplicate-free queue is duplicate-free and does not
      hold the head. */
  lemma NoDupTail<Id>(q: seq<Id>)
    requires NoDup(q) && |q| > 0
    ensures NoDup(q[1..]) && q[0] !in Elems(q[1..])
  {
    forall i, j | 0 <= i < j < |q[1..]| ensures q[1..][i] != q[1..][j] {
      assert q[1..][i] == q[i + 1] && q[1..][j] == q[j + 1];
    }
    forall k | 0 <= k < |q[1..]| ensures q[1..][k] != q[0] {
      assert q[1..][k] == q[k + 1];
    }
  }

  /** Prepending an absent identifier keeps a queue duplicate-free. */
  lemma ConsNoDup<Id>(x: Id, s: seq<Id>)
    requires NoDup(s) && x !in s
    ensures NoDup([x] + s)
  {
    var r := [x] + s;
    forall i, j | 0 <= i < j < |r| ensures r[i] != r[j] {
      assert r[j] == s[j - 1];
      if i > 0 {
        assert r[i] == s[i - 1];
      }
    }
  }

  /** Past a head that does not match, removal works on the tail. */
  lemma QueueRemoveCons<Id>(q: seq<Id>, arg: QueueArg<Id>)
    requires |q| > 0 && !Matches(arg, q[0])
    ensures QueueRemove(q, arg) == [q[0]] + QueueRemove(q[1..], arg)
  {
  }

  lemma ElemsCons<Id>(x: Id, s: seq<Id>)
    ensures Elems([x] + s) == {x} + Elems(s)
  {
    assert forall y :: y in [x] + s <==> y == x || y in s;
  }

  /** Removal keeps exactly the identifiers it does not target; on a queue
      without duplicates the targeted one is gone altogether. */
  lemma {:induction false} QueueRemoveElems<Id>(q: seq<Id>, arg: QueueArg<Id>)
    requires NoDup(q)
    ensures Elems(QueueRemove(q, arg)) ==
            Elems(q) - (if arg.ResourceArg? then {arg.id} else {})
  {
    if |q| > 0 {
      NoDupTail(q);
      assert q == [q[0]] + q[1..];
      ElemsCons(q[0], q[1..]);
      if !Matches(arg, q[0]) {
        QueueRemoveElems(q[1..], arg);
        QueueRemoveCons(q, arg);
        ElemsCons(q[0], QueueRemove(q[1..], arg));
      }
    }
  }

  /** Removal keeps a queue duplicate-free. */
  lemma {:induction false} QueueRemoveNoDup<Id>(q: seq<Id>, arg: QueueArg<Id>)
    requires NoDup(q)
    ensures NoDup(QueueRemove(q, arg))
  {
    if |q| > 0 {
      NoDupTail(q);
      if !Matches(arg, q[0]) {
        var rest := QueueRemove(q[1..], arg);
        QueueRemoveNoDup(q[1..], arg);
        QueueRemoveElems(q[1..], arg);
        assert q[0] !in Elems(rest);
        ConsNoDup(q[0], rest);
      }
    }
  }

  /** A queue without duplicates has as many identifiers as positions. */
  lemma {:induction false} NoDupCard<Id>(q: seq<Id>)
    requires NoDup(q)
    ensures |Elems(q)| == |q|
  {
    if |q| > 0 {
      NoDupTail(q);
      NoDupCard(q[1..]);
      assert Elems(q) == {q[0]} + Elems(q[1..]);
    }
  }

  /** The size equation of the design: in a valid pool the number of
      members is the number queued plus the number borrowed. */
  lemma ValidSize<Id>(p: PoolState<Id>)
    requires Valid(p)
    ensures |p.members| == |p.queue| + |p.outstanding|
  {
    NoDupCard(p.queue);
  }
}
